=== FILE: README.md ===
# RabbitMQ event-driven demo: a verified model of the broker client and its consumers

The demo publishes order lifecycle events (`order.created`, `order.updated`,
`order.cancelled`) to the durable topic exchange `events_exchange`, and three consumer
services each bind their own durable queue to it. This project models, in Dafny, the parts
of it that hold sequential logic:

- **The broker client** (`src/utils/rabbitMQ.js`, module `RabbitMQ`). The process-wide
  connection and channel caches form a small state machine: each is absent or set, is
  filled by a successful acquisition and is cleared by its close observer. A failed connect
  and a closed connection each schedule a reconnect after 5000 ms. `publishEvent` passes the
  broker's boolean through. `consumeEvents` declares the queue, binds it once per routing key,
  sets prefetch to 1 and registers the consumer, in that order, and stops at the first
  failure. Its delivery callback acks or nacks with requeue. The state is a value
  `ClientState` with one pure step function per operation. The class `Client` holds the same
  fields and updates them in place; each of its methods is proved to follow its step function.
  Every broker call is appended to a call log `calls`. Pending reconnect timers are a list
  of delays `timers`.
- **The order consumer's startup policy** (`src/consumers/orderConsumer.js`, module
  `OrderConsumer`). Failed setup attempts are retried after `min(1000 * 2^n, 30000)` ms.
  After `maxRetries` failed retries the process exits with status 1. The recursive
  re-invocation through a timer is the loop of `StartConsumer`. Its first iteration is the
  call made when the module loads, and each later one is a retry timer firing. The recursive function `Supervise` is its specification.
- **The analytics store** (`src/consumers/analyticsConsumer.js`, module
  `AnalyticsConsumer`). It holds the order counters and a per-status count map, updated in
  place by routing key. `Apply` and `Replay` are the specification, and the class `Store` is
  the mutable object.
- **The notification templates** (`src/consumers/notificationConsumer.js`, module
  `NotificationConsumer`). These are pure functions from routing key and order to the
  message text.

The configuration constants (`src/config.js`) are in module `Config`. The event payload is
in `Events`, the broker's handles, calls and answers are in `Broker`, and `Option`, `Result`
and `Outcome` are in `Results`.

**The broker is a parameter.** Nothing here talks to a broker. A `Replies` value gives the
answer to every library call a step might make: connect, createChannel, assertExchange,
publish, assertQueue, bindQueue (one answer per routing-key position), prefetch and
consume. Each step function takes the `Replies` of the call it models. So every proved
property holds for every way the broker can answer.

**Behaviour of the code that a reader might not expect.** The model follows the code.
- One might expect a failed exchange declaration to leave the channel cache empty. In the
  code, the channel is cached before the declaration, and its close observer is
  registered only after the declaration succeeds. The failed channel therefore stays
  cached, and no later operation or event clears it (`RabbitMQ.FailedDeclarationSticks`,
  `RabbitMQ.FailedChannelNeverCleared`).
- One might expect concurrent acquisitions to share one pending connection. The code has no
  such de-duplication, and the model has none either (see "Left out").
- One might expect the channel to be re-created whenever the connection is. In the code, the
  connection's close observer does not touch the channel cache; only the channel's own
  observer clears it (`RabbitMQ.ConnectionCloseKeepsChannel`). When the broker library closes
  the connection's channels too, an observed channel's close is a separate event here.

## Model

| member | source | states |
|---|---|---|
| Config.BrokerUrl | src/config.js:5 | The broker URL is the `RABBITMQ_URL` environment value when set and non-empty, otherwise `amqp://localhost`; never empty |
| RabbitMQ.InitialValid | src/utils/rabbitMQ.js:4-6 | The initial state, with no connection, no channel, no timer and no call, satisfies the client invariant |
| RabbitMQ.ConnectionStep | src/utils/rabbitMQ.js:8-27 | A cached connection is returned with no call made. Otherwise exactly one connect to the configured URL is made. Success is cached and returned with nothing scheduled. Failure caches nothing, returns no connection and schedules exactly one 5000 ms retry. The channel is untouched and the invariant is preserved |
| RabbitMQ.ConnectionClosed | src/utils/rabbitMQ.js:16-20 | The observer exists only on an obtained connection, so a close needs a cached connection. It clears only the connection and schedules one reconnect after 5000 ms. The URL, the channel, its observer and the call log are unchanged |
| RabbitMQ.ReconnectFired | src/utils/rabbitMQ.js:16-26 | A reconnect timer firing while connected changes nothing but removing that timer. A reconnect that fails again leaves exactly one timer pending in its place |
| RabbitMQ.ChannelStep | src/utils/rabbitMQ.js:29-55 | A cached channel is returned with nothing else happening. Otherwise the connection is acquired as in `getConnection`, and a missing connection makes the call on `undefined` throw a TypeError. A fresh channel is created on that connection, cached, declared with the durable topic exchange and observed. createChannel and declaration errors are rethrown. A failed createChannel leaves the cache empty, after exactly one createChannel call. A failed declaration leaves the new channel cached but unobserved, after exactly the createChannel and declaration calls |
| RabbitMQ.ChannelClosed | src/utils/rabbitMQ.js:45-48 | The close observer of an observed channel clears only the channel cache, and it fires once: afterwards the channel has no observer. A channel without an observer changes nothing. The invariant holds that only the cached channel has an observer |
| RabbitMQ.PublishStep | src/utils/rabbitMQ.js:57-78 | The result is exactly the boolean `publish` returned, `false` included. A channel failure is rethrown, never turned into `false`, and nothing is published. Otherwise exactly one persistent publish goes to the configured exchange, and a throwing `publish` is rethrown with its own error |
| RabbitMQ.BindCalls | src/utils/rabbitMQ.js:88-90 | One binding of the queue to the configured exchange per routing key, in list order |
| RabbitMQ.SetupCalls | src/utils/rabbitMQ.js:85-96 | The full consumer setup, position by position: durable assertQueue first, then one binding per routing key in list order, then `prefetch(1)`, then consume |
| RabbitMQ.FirstFailure | src/utils/rabbitMQ.js:88-90 | The position where the awaited binding loop stops: every earlier binding passed, and the binding at this position failed unless all of them passed |
| RabbitMQ.SetupMade | src/utils/rabbitMQ.js:85-96 | How many setup calls are made, up to and including the first failure. Every call before the last one made passed, and the last one failed unless the setup reached the registration. The whole setup is made exactly when assertQueue, every binding and prefetch pass. Only assertQueue is made exactly when it fails |
| RabbitMQ.SetupOutcome | src/utils/rabbitMQ.js:80-115 | The setup succeeds exactly when every setup call and the consumer registration succeed. The outcome, and so the rethrown error, is the broker's answer to the last setup call made, which is the first one that failed |
| RabbitMQ.ConsumeStep | src/utils/rabbitMQ.js:80-115 | A channel failure is rethrown and no setup call is made. Otherwise the calls made are the prefix of the full setup up to the first failure, and only the call log changes. The outcome is that first failure, which is rethrown, or the registration's outcome. The invariant is preserved |
| RabbitMQ.ConsumeSucceeds | src/utils/rabbitMQ.js:80-115 | `consumeEvents` succeeds exactly when the channel is obtained and every setup call and the registration succeed, and then the whole setup is in the log |
| RabbitMQ.SetupLogQueueFails | src/utils/rabbitMQ.js:85 | When the queue declaration fails, the only setup call made is that declaration |
| RabbitMQ.SetupLogBindFails | src/utils/rabbitMQ.js:85-90 | When a binding fails, the calls made are the declaration and the bindings up to and including the failing one |
| RabbitMQ.SetupLogPrefetchFails | src/utils/rabbitMQ.js:85-93 | When the prefetch fails, every setup call but the consumer registration is made |
| RabbitMQ.SetupLogComplete | src/utils/rabbitMQ.js:85-96 | When nothing before the registration fails, the whole setup is made, in order |
| RabbitMQ.SetupKeepsValid | src/utils/rabbitMQ.js:85-96 | Every setup call conforms to the configuration (durable queue, the configured exchange, prefetch 1), so logging any prefix of the setup keeps the invariant |
| RabbitMQ.Settle | src/utils/rabbitMQ.js:96-108 | A null message gets no settlement. Otherwise the delivery gets one or two settlements, all for its own tag. A parse or handler failure ends in `nack(msg, false, true)`. Success acks first, and the ack alone is sent when the ack does not throw |
| RabbitMQ.SettleOutcome | src/utils/rabbitMQ.js:96-108 | The callback's promise rejects exactly when a nack was sent (a parse, handler or ack failure) and the nack threw, and then with the nack's error. Otherwise it resolves |
| RabbitMQ.RejectsOnlyAfterNack | src/utils/rabbitMQ.js:103-107 | When the callback rejects, the last call it made is the nack with requeue for its delivery |
| RabbitMQ.CountsAppend | src/utils/rabbitMQ.js:102-106 | Ack and nack counts per delivery tag add up over concatenated call logs |
| RabbitMQ.SettledOnce | src/utils/rabbitMQ.js:96-108 | Per delivery tag in the log: a null message adds nothing. Otherwise exactly one ack is added when parse and handler succeed, and exactly one nack when they do not. Both are added only when the ack itself threw. Other deliveries are untouched |
| RabbitMQ.Next | src/utils/rabbitMQ.js:8-115 | Any operation or observed event keeps the client invariant and the URL. A close with no connection, or a timer firing when none is pending, changes nothing |
| RabbitMQ.Steps | src/utils/rabbitMQ.js:8-115 | Any run of operations and events keeps the invariant and the URL |
| RabbitMQ.StuckChannelStep | src/utils/rabbitMQ.js:29-48 | A cached channel without a close observer stays cached through any single operation or event, and then no channel has an observer |
| RabbitMQ.StuckChannelStays | src/utils/rabbitMQ.js:29-48 | A cached channel without a close observer stays cached and unobserved through any run of operations and events |
| RabbitMQ.FailedChannelNeverCleared | src/utils/rabbitMQ.js:34-53 | After a failed exchange declaration, the new channel remains the cached channel whatever operations and events follow |
| RabbitMQ.TimerReconnectServesNextCall | src/utils/rabbitMQ.js:19-25 | A pending reconnect timer that fires and connects makes the only connect call. The next `getConnection` returns that connection and makes no call |
| RabbitMQ.ChannelIsReused | src/utils/rabbitMQ.js:30 | After a channel is obtained, the next `getChannel` returns it with no call and no state change |
| RabbitMQ.FailedDeclarationSticks | src/utils/rabbitMQ.js:34-53 | After a failed exchange declaration, the error is rethrown and the new channel stays cached. Its closing does not clear the cache, and later `getChannel` calls return it without declaring again |
| RabbitMQ.ReacquireAfterClose | src/utils/rabbitMQ.js:16-48 | After the cached connection and then the observed channel close, `getChannel` against a healthy broker reconnects, creates a channel and declares the exchange, and makes exactly these three calls |
| RabbitMQ.ConnectionCloseKeepsChannel | src/utils/rabbitMQ.js:16-30 | The connection's close observer does not touch the channel cache: right after the connection's close, `getChannel` still returns the cached channel with no call |
| RabbitMQ.Client.constructor | src/utils/rabbitMQ.js:4-6 | The module state starts empty with the configured URL and satisfies the invariant |
| RabbitMQ.Client.GetConnection | src/utils/rabbitMQ.js:8-27 | In-place `getConnection`: the new fields and the result are those of `ConnectionStep` |
| RabbitMQ.Client.OnConnectionClose | src/utils/rabbitMQ.js:16-20 | In-place connection close observer, as `ConnectionClosed` |
| RabbitMQ.Client.OnReconnectTimer | src/utils/rabbitMQ.js:16-26 | In-place reconnect timer, as `ReconnectFired` |
| RabbitMQ.Client.GetChannel | src/utils/rabbitMQ.js:29-55 | In-place `getChannel`, as `ChannelStep` |
| RabbitMQ.Client.OnChannelClose | src/utils/rabbitMQ.js:45-48 | In-place channel close observer, as `ChannelClosed` |
| RabbitMQ.Client.Perform | src/utils/rabbitMQ.js:8-115 | One operation or event, in place, as `Next` |
| RabbitMQ.Client.PerformAll | src/utils/rabbitMQ.js:8-115 | A run of operations and events, performed in place one after another, as `Steps` |
| RabbitMQ.Client.PublishEvent | src/utils/rabbitMQ.js:57-78 | In-place `publishEvent`, as `PublishStep` |
| RabbitMQ.Client.ConsumeEvents | src/utils/rabbitMQ.js:80-115 | In-place `consumeEvents`, as `ConsumeStep` |
| RabbitMQ.Client.SetUpConsumer | src/utils/rabbitMQ.js:84-96 | The setup on an acquired channel appends to the log exactly the setup prefix up to the first failure, and returns that failure or the registration's outcome |
| RabbitMQ.Client.BindAll | src/utils/rabbitMQ.js:88-90 | The binding loop appends the bindings up to and including the first failing one, and reports that failure |
| RabbitMQ.Client.OnDelivery | src/utils/rabbitMQ.js:96-108 | The in-place delivery callback appends exactly the settlements of `Settle` to the log, and its promise settles as `SettleOutcome` says |
| OrderConsumer.Pow2 | src/consumers/orderConsumer.js:34 | `2^n` is at least 1 |
| OrderConsumer.Pow2Monotone | src/consumers/orderConsumer.js:34 | `2^m <= 2^n` whenever `m <= n` |
| OrderConsumer.RetryDelay | src/consumers/orderConsumer.js:34 | The delay lies between 1000 and 30000 ms, never exceeds `1000 * 2^n`, and equals it whenever under the cap |
| OrderConsumer.RetryDelayMonotone | src/consumers/orderConsumer.js:34 | Later retries never wait less |
| OrderConsumer.DefaultSchedule | src/consumers/orderConsumer.js:15-34 | The delays for retry counts 0 to 4 are exactly 1000, 2000, 4000, 8000 and 16000 ms, and every later one is the 30000 ms cap |
| OrderConsumer.SuperviseShape | src/consumers/orderConsumer.js:15-46 | Every run makes at least one attempt, and at most `maxRetries + 1` in all. It schedules one delay per failed attempt that is retried, each delay the backoff of its retry count. The consumer runs exactly when the last attempt succeeded, and all earlier attempts failed |
| OrderConsumer.SuperviseExhaustion | src/consumers/orderConsumer.js:33-44 | The process exits with status 1 exactly when the first `maxRetries + 1` attempts all fail, and then after exactly that many attempts |
| OrderConsumer.SuperviseExtend | src/consumers/orderConsumer.js:37-39 | A scheduled retry that fires continues the same run with `retryCount + 1` and the same `maxRetries` |
| OrderConsumer.SixFailuresExit | src/consumers/orderConsumer.js:15-44 | Six failures with the default five retries wait 1, 2, 4, 8 and 16 seconds, then exit with status 1 |
| OrderConsumer.NextAttempt | src/consumers/orderConsumer.js:29-44 | One more attempt after scheduled retries: success starts the consumer with no further delay, a failure under the limit schedules the retry with the next backoff delay, and a failure at the limit exits with status 1 |
| OrderConsumer.RunExtend | src/consumers/orderConsumer.js:37-39 | A run of attempts followed by one more turn is a longer run. The turn is the client's actions while the timer waits, then the attempt |
| OrderConsumer.Attempt | src/consumers/orderConsumer.js:19-27 | One attempt is `consumeEvents` on the orders queue with the three order routing keys |
| OrderConsumer.StartConsumer | src/consumers/orderConsumer.js:15-46 | The attempt loop produces exactly the run `Supervise` specifies for the observed outcomes, with one attempt per outcome. Before each attempt, the client's own operations and events of that turn happen, such as reconnect timers and closes. Then the attempt is a `consumeEvents` on the orders queue. A success schedules nothing more |
| AnalyticsConsumer.CountOf | src/consumers/analyticsConsumer.js:22-23 | A status count, a missing entry counting as 0 |
| AnalyticsConsumer.Bump | src/consumers/analyticsConsumer.js:21-38 | The entry for the status rises by one and every other entry is unchanged |
| AnalyticsConsumer.Apply | src/consumers/analyticsConsumer.js:12-45 | `order.created` raises `totalOrders` by one and `order.cancelled` raises `cancelledOrders` by one. The three order keys bump the event's status count. Any other key changes nothing. A missing `data` throws a TypeError after the counter was raised, with no status change |
| AnalyticsConsumer.Conservation | src/consumers/analyticsConsumer.js:16-40 | Over any run of deliveries, each counter grows by the number of its key's deliveries. Each status count grows by the recorded deliveries with that status, and the sum of all counts by the number of recorded deliveries |
| AnalyticsConsumer.ConservationFromEmpty | src/consumers/analyticsConsumer.js:5-40 | From the initial store, the counters count deliveries and the status counts sum to the recorded deliveries |
| AnalyticsConsumer.SumRemove | src/consumers/analyticsConsumer.js:9 | The sum of the status counts is independent of the order the statuses are taken in |
| AnalyticsConsumer.SumBump | src/consumers/analyticsConsumer.js:22-23 | One more event for a status raises the sum of the counts by exactly one |
| AnalyticsConsumer.CountersMonotone | src/consumers/analyticsConsumer.js:16-40 | Neither counter nor any status count ever decreases along a run |
| AnalyticsConsumer.Store.constructor | src/consumers/analyticsConsumer.js:5-10 | The store starts with both counters at zero and no status counts |
| AnalyticsConsumer.Store.ProcessAnalyticsEvent | src/consumers/analyticsConsumer.js:12-45 | The in-place update leaves the store and the outcome that `Apply` gives |
| NotificationConsumer.IdPosition | src/consumers/notificationConsumer.js:10-22 | The offset at which the order id is inserted is positive in every template. A template text always precedes the inserted id |
| NotificationConsumer.Message | src/consumers/notificationConsumer.js:10-22 | Each template fixed by position and length: "New order created: <id>. Thank you for your purchase!", "Your order <id> has been updated to: <status>", "Your order <id> has been cancelled.", and "Update on your order <id>" for any other key |
| NotificationConsumer.Notification | src/consumers/notificationConsumer.js:4-22 | A message exists exactly when the event has data, and contains the order id at its template position. Otherwise the handler throws a TypeError |
| NotificationConsumer.DependsOnlyOnIdAndStatus | src/consumers/notificationConsumer.js:10-22 | The message depends only on the routing key, the order id and, for updates, the status |
| NotificationConsumer.OtherKeysShareDefault | src/consumers/notificationConsumer.js:20-21 | Every routing key outside the three order keys gets the same default message |
| NotificationConsumer.TemplatesDistinct | src/consumers/notificationConsumer.js:10-22 | For the same order, the four templates give four different messages |
| NotificationConsumer.IdDeterminedByMessage | src/consumers/notificationConsumer.js:10-22 | Outside `order.updated`, two orders get the same message exactly when they have the same id |

## Left out

- Broker I/O (`amqplib`): every library call made by a client operation is replaced by the answer a `Replies` value gives for it. In the delivery callback, the answers of `ack` and `nack` are parameters of it. Network behaviour, broker-side queues and message persistence are not modelled.
- Timers: `setTimeout` is recorded as a pending delay in `timers` (client) or as a `RetryScheduled` phase (order consumer). Elapsed time is not modelled. The order of timer firings relative to other events is an input: any sequence of client actions may run between two startup attempts. The 300 ms and 500 ms simulated processing sleeps in the consumers are dropped.
- Concurrency: every operation runs to completion as one step. The code lets two overlapping `getConnection` calls both connect, because the cache check precedes the `await`. Those interleavings, and any de-duplication of concurrent acquisitions, are not modelled.
- JSON and buffers: `JSON.parse` of a delivery is an input `parsed: Result<Event>`, and `JSON.stringify` on publish is not modelled. A published message is recorded as the event value itself.
- Broker-side prefetch: the model records the `prefetch(1)` call, but not the broker's limit of one unacknowledged delivery per consumer.
- RabbitMQ.Settle: a handler failure is always an `Error` value. A handler that rejects with `null` or `undefined` would make the `error.message` read in the catch block throw. The nack would then not be sent, and the callback would reject, leaving the delivery unsettled. The repository's handlers only throw `TypeError` objects, so this path is not modelled.
- Poison messages: a nack requeues without limit, and the model adds no cap. A created or cancelled event without `data` raises its analytics counter on every redelivery.
- `totalRevenue` in the analytics store: it is floating-point arithmetic on random amounts and is not modelled.
- Status keys: the status count map is a Dafny map from string to count. JavaScript object-key coercion is not modelled. This covers an undefined status counted under `"undefined"`, which is also what a `data` that is a string or a number gives, and inherited keys such as `__proto__`. An order always has string fields; for such a `data` the notification text would read "undefined".
- Logging (`console.*`) and the customer id in the notification log line are not modelled. `process.exit(1)` is the terminal phase `Exited(1)`.
- The `startConsumer` functions of the analytics and notification services make one `consumeEvents` call and exit on failure. They are not modelled separately, because `RabbitMQ.ConsumeStep` covers the call.
- `processOrderEvent` in the order consumer only logs and sleeps, and is not modelled. Its reads of `event.data` would throw on a missing `data`, like the other handlers.
- `src/publisher.js` is not part of this model. It is a simulation driver built on random values, clocks and intervals.
- RabbitMQ.ReconnectFired: a reconnect timer's result is discarded and the function states only the timer bookkeeping and, through `ConnectionStep`, the connect call. The model does not fix which pending timer fires; the oldest is taken.

=== FILE: analytics_consumer.dfy ===
/**
 * The analytics service's in-memory store: two order counters and a count of events per
 * order status, updated in place by `processAnalyticsEvent` according to the routing key.
 *
 * `Apply` is the specification of one update and `Replay` of a run of deliveries; the class
 * `Store` is the mutable object itself, proved to follow `Apply`.
 */
module AnalyticsConsumer {
  import opened Results
  import opened Config
  import opened Events

  /** The store's counters, without the floating-point revenue total. */
  datatype Metrics = Metrics(totalOrders: nat, cancelledOrders: nat, ordersByStatus: map<string, nat>)

  /** The store as the service starts: both counters zero and no status seen. */
  const EMPTY: Metrics := Metrics(0, 0, map[])

  /** The count recorded for `status`, a missing entry counting as 0. */
  function CountOf(counts: map<string, nat>, status: string): (n: nat)
    ensures status !in counts ==> n == 0
    ensures status in counts ==> n == counts[status]
  {
    if status in counts then counts[status] else 0
  }

  /** One more event seen for `status`: that entry rises by one, every other entry stays. */
  function Bump(counts: map<string, nat>, status: string): (r: map<string, nat>)
    ensures r.Keys == counts.Keys + {status}
    ensures CountOf(r, status) == CountOf(counts, status) + 1
    ensures forall s :: s != status ==> CountOf(r, s) == CountOf(counts, s)
  {
    counts[status := CountOf(counts, status) + 1]
  }

  /**
   * `processAnalyticsEvent(event, routingKey)` on the store `m`: the new store and whether
   * the handler returned or threw. For `order.created` and `order.cancelled` the counter is
   * raised before `event.data` is read, so an event without data still counts there and then
   * throws; for `order.updated` a missing `data` throws before anything changes. Any other
   * routing key changes nothing.
   */
  function Apply(m: Metrics, event: Event, routingKey: string): (res: (Metrics, Outcome))
    ensures res.1 == (if IsOrderKey(routingKey) && event.data.None? then Fail(TypeError) else Pass)
    ensures res.0.totalOrders == m.totalOrders + (if routingKey == ORDER_CREATED then 1 else 0)
    ensures res.0.cancelledOrders == m.cancelledOrders + (if routingKey == ORDER_CANCELLED then 1 else 0)
    ensures res.0.ordersByStatus ==
              if IsOrderKey(routingKey) && event.data.Some?
              then Bump(m.ordersByStatus, event.data.value.status)
              else m.ordersByStatus
  {
    if routingKey == ORDER_CREATED then
      var counted := m.(totalOrders := m.totalOrders + 1);
      Record(counted, event)
    else if routingKey == ORDER_UPDATED then
      Record(m, event)
    else if routingKey == ORDER_CANCELLED then
      var counted := m.(cancelledOrders := m.cancelledOrders + 1);
      Record(counted, event)
    else
      (m, Pass)
  }

  /** The status-count update shared by the three branches, which throws when `data` is missing. */
  function Record(m: Metrics, event: Event): (res: (Metrics, Outcome))
  {
    match event.data
    case None => (m, Fail(TypeError))
    case Some(order) => (m.(ordersByStatus := Bump(m.ordersByStatus, order.status)), Pass)
  }

  /** The store after the deliveries `log`, each a parsed event with its routing key, in order. */
  function Replay(m: Metrics, log: seq<(Event, string)>): (r: Metrics)
    decreases |log|
  {
    if log == [] then m
    else
      var (event, routingKey) := log[|log| - 1];
      Apply(Replay(m, log[..|log| - 1]), event, routingKey).0
  }

  /** How many deliveries in `log` carry `routingKey`. */
  function KeyCount(log: seq<(Event, string)>, routingKey: string): (n: nat)
    decreases |log|
  {
    if log == [] then 0
    else KeyCount(log[..|log| - 1], routingKey) + (if log[|log| - 1].1 == routingKey then 1 else 0)
  }

  /** Whether a delivery reaches the status-count update: an order routing key and an event with data. */
  predicate Recorded(delivery: (Event, string)) {
    IsOrderKey(delivery.1) && delivery.0.data.Some?
  }

  /** How many deliveries in `log` are recorded under `status`. */
  function StatusCount(log: seq<(Event, string)>, status: string): (n: nat)
    decreases |log|
  {
    if log == [] then 0
    else
      var d := log[|log| - 1];
      StatusCount(log[..|log| - 1], status) + (if Recorded(d) && d.0.data.value.status == status then 1 else 0)
  }

  /** How many deliveries in `log` are recorded under any status. */
  function RecordedCount(log: seq<(Event, string)>): (n: nat)
    decreases |log|
  {
    if log == [] then 0
    else RecordedCount(log[..|log| - 1]) + (if Recorded(log[|log| - 1]) then 1 else 0)
  }

  /** An element of a non-empty map's key set. */
  ghost function Pick(counts: map<string, nat>): (k: string)
    requires counts != map[]
    ensures k in counts
  {
    var k :| k in counts; k
  }

  /** The sum of all status counts. */
  ghost function Sum(counts: map<string, nat>): (n: nat)
    decreases |counts|
  {
    if counts == map[] then 0
    else
      var k := Pick(counts);
      assert |counts - {k}| < |counts| by {
        assert (counts - {k}).Keys == counts.Keys - {k};
      }
      counts[k] + Sum(counts - {k})
  }

  /** The sum does not depend on the order keys are taken in: any entry can be split off. */
  lemma {:induction false} SumRemove(counts: map<string, nat>, k: string)
    requires k in counts
    ensures Sum(counts) == counts[k] + Sum(counts - {k})
    decreases |counts|
  {
    var j := Pick(counts);
    if j != k {
      var without := counts - {j};
      assert (counts - {k}).Keys == counts.Keys - {k};
      assert without.Keys == counts.Keys - {j};
      SumRemove(without, k);
      SumRemove(counts - {k}, j);
      assert without - {k} == (counts - {k}) - {j};
    }
  }

  /** One more event for a status adds exactly one to the sum of the counts. */
  lemma SumBump(counts: map<string, nat>, status: string)
    ensures Sum(Bump(counts, status)) == Sum(counts) + 1
  {
    var bumped := Bump(counts, status);
    SumRemove(bumped, status);
    assert bumped - {status} == counts - {status};
    if status in counts {
      SumRemove(counts, status);
    } else {
      assert counts - {status} == counts;
    }
  }

  /**
   * Conservation over any run of deliveries: `totalOrders` grows by the number of
   * `order.created` deliveries and `cancelledOrders` by the number of `order.cancelled` ones
   * (with or without data); every status count grows by the deliveries recorded under that
   * status, and the sum of the counts by all recorded deliveries.
   */
  lemma {:induction false} Conservation(m: Metrics, log: seq<(Event, string)>)
    decreases |log|
    ensures Replay(m, log).totalOrders == m.totalOrders + KeyCount(log, ORDER_CREATED)
    ensures Replay(m, log).cancelledOrders == m.cancelledOrders + KeyCount(log, ORDER_CANCELLED)
    ensures forall s :: CountOf(Replay(m, log).ordersByStatus, s) == CountOf(m.ordersByStatus, s) + StatusCount(log, s)
    ensures Sum(Replay(m, log).ordersByStatus) == Sum(m.ordersByStatus) + RecordedCount(log)
  {
    if log != [] {
      var prefix := log[..|log| - 1];
      var (event, routingKey) := log[|log| - 1];
      Conservation(m, prefix);
      var before := Replay(m, prefix);
      if IsOrderKey(routingKey) && event.data.Some? {
        SumBump(before.ordersByStatus, event.data.value.status);
      }
    }
  }

  /** From the empty store: the counters count deliveries and the status counts sum to the recorded ones. */
  lemma ConservationFromEmpty(log: seq<(Event, string)>)
    ensures Replay(EMPTY, log).totalOrders == KeyCount(log, ORDER_CREATED)
    ensures Replay(EMPTY, log).cancelledOrders == KeyCount(log, ORDER_CANCELLED)
    ensures Sum(Replay(EMPTY, log).ordersByStatus) == RecordedCount(log)
  {
    Conservation(EMPTY, log);
  }

  /** The counters never go down: the store after a prefix of the run is below the store after all of it. */
  lemma {:induction false} CountersMonotone(m: Metrics, log: seq<(Event, string)>, i: nat)
    requires i <= |log|
    decreases |log|
    ensures Replay(m, log[..i]).totalOrders <= Replay(m, log).totalOrders
    ensures Replay(m, log[..i]).cancelledOrders <= Replay(m, log).cancelledOrders
    ensures forall s :: CountOf(Replay(m, log[..i]).ordersByStatus, s) <= CountOf(Replay(m, log).ordersByStatus, s)
  {
    if i < |log| {
      var prefix := log[..|log| - 1];
      assert log[..i] == prefix[..i];
      CountersMonotone(m, prefix, i);
    } else {
      assert log[..i] == log;
    }
  }

  /** The mutable store of `analyticsConsumer.js`. */
  class Store {
    var totalOrders: nat
    var cancelledOrders: nat
    var ordersByStatus: map<string, nat>

    function Snapshot(): Metrics
      reads this
    {
      Metrics(totalOrders, cancelledOrders, ordersByStatus)
    }

    constructor()
      ensures Snapshot() == EMPTY
    {
      totalOrders := 0;
      cancelledOrders := 0;
      ordersByStatus := map[];
    }

    /** `processAnalyticsEvent`: updates the store in place as `Apply` says and reports whether it threw. */
    method ProcessAnalyticsEvent(event: Event, routingKey: string) returns (r: Outcome)
      modifies this
      ensures (Snapshot(), r) == Apply(old(Snapshot()), event, routingKey)
    {
      if routingKey == ORDER_CREATED {
        totalOrders := totalOrders + 1;
      } else if routingKey == ORDER_CANCELLED {
        cancelledOrders := cancelledOrders + 1;
      } else if routingKey != ORDER_UPDATED {
        return Pass;
      }
      if event.data.None? {
        return Fail(TypeError);
      }
      var status := event.data.value.status;
      ordersByStatus := ordersByStatus[status := CountOf(ordersByStatus, status) + 1];
      r := Pass;
    }
  }
}

=== FILE: broker.dfy ===
/**
 * The abstract broker behind the client library: opaque handles, the calls a client
 * issues, and the broker's reply to each of them (success or failure).
 */
module Broker {
  import opened Results
  import opened Events

  datatype Connection = Connection(id: nat)
  datatype Channel = Channel(id: nat)

  /** A message handed to a consumer callback: its delivery tag and routing key. */
  datatype Delivery = Delivery(tag: nat, routingKey: string)

  /** One call from the client to the broker, with the arguments it was made with. */
  datatype Call =
    | Connect(url: string)
    | CreateChannel(conn: Connection)
    | AssertExchange(ch: Channel, name: string, kind: string, durable: bool)
    | Publish(ch: Channel, exchange: string, routingKey: string, message: Event, persistent: bool)
    | AssertQueue(ch: Channel, queue: string, durable: bool)
    | BindQueue(ch: Channel, queue: string, exchange: string, pattern: string)
    | Prefetch(ch: Channel, count: nat)
    | Consume(ch: Channel, queue: string)
    | Ack(ch: Channel, tag: nat)
    | Nack(ch: Channel, tag: nat, allUpTo: bool, requeue: bool)

  /**
   * How the broker answers the calls of one client operation. `bindQueue(i)` answers the
   * binding of the i-th routing key; `publish` is the boolean `publish` returns (false when
   * the write buffer is full) or the error it throws.
   */
  datatype Replies = Replies(
    connect: Result<Connection>,
    createChannel: Result<Channel>,
    assertExchange: Outcome,
    publish: Result<bool>,
    assertQueue: Outcome,
    bindQueue: nat -> Outcome,
    prefetch: Outcome,
    consume: Outcome)
}

=== FILE: config.dfy ===
/** The broker address, exchange, queue names and routing keys of the system's configuration. */
module Config {
  import opened Results

  const DEFAULT_URL: string := "amqp://localhost"
  const EXCHANGE: string := "events_exchange"
  const EXCHANGE_TYPE: string := "topic"

  const ORDERS_QUEUE: string := "orders_queue"
  const NOTIFICATIONS_QUEUE: string := "notifications_queue"
  const ANALYTICS_QUEUE: string := "analytics_queue"

  const ORDER_CREATED: string := "order.created"
  const ORDER_UPDATED: string := "order.updated"
  const ORDER_CANCELLED: string := "order.cancelled"

  /** The keys every consumer binds its queue to, in the order the consumers list them. */
  const ORDER_ROUTING_KEYS: seq<string> := [ORDER_CREATED, ORDER_UPDATED, ORDER_CANCELLED]

  /** One of the three order lifecycle routing keys. */
  predicate IsOrderKey(routingKey: string) {
    routingKey == ORDER_CREATED || routingKey == ORDER_UPDATED || routingKey == ORDER_CANCELLED
  }

  /**
   * The broker address: the `RABBITMQ_URL` environment variable when it is set to a
   * non-empty string (an empty string is falsy for `||`), the local default otherwise.
   */
  function BrokerUrl(env: Option<string>): (url: string)
    ensures url != []
    ensures env.Some? && env.value != [] ==> url == env.value
    ensures env.None? || env.value == [] ==> url == DEFAULT_URL
  {
    if env.Some? && env.value != [] then env.value else DEFAULT_URL
  }
}

=== FILE: events.dfy ===
/** The wire payload exchanged through the broker. */
module Events {
  import opened Results

  /** The fields of an order that the consumers read. */
  datatype Order = Order(id: string, customerId: string, status: string)

  /**
   * An order lifecycle event as parsed from a delivery. `data` is `None` when reading a
   * field of `event.data` throws: the parsed value is `null`, or its `data` is `null` or
   * missing. A `data` that is a string or a number is not modelled.
   */
  datatype Event = Event(eventId: string, eventType: string, timestamp: string, data: Option<Order>)
}

=== FILE: notification_consumer.dfy ===
/**
 * The notification service's message selection: `processNotificationEvent` picks one
 * message template by routing key and fills it with the order's id (and, for updates, its
 * new status). Logging, the simulated 300 ms send and the customer id in the log line are
 * not part of the message.
 */
module NotificationConsumer {
  import opened Results
  import opened Config
  import opened Events

  const CREATED_PREFIX: string := "New order created: "
  const CREATED_SUFFIX: string := ". Thank you for your purchase!"
  const ORDER_PREFIX: string := "Your order "
  const UPDATED_INFIX: string := " has been updated to: "
  const CANCELLED_SUFFIX: string := " has been cancelled."
  const DEFAULT_PREFIX: string := "Update on your order "

  /** `s` holds `t` starting at position `i`. */
  predicate At(s: string, t: string, i: nat) {
    i + |t| <= |s| && s[i..i + |t|] == t
  }

  /** Each part of a three-part text sits where the parts before it end. */
  lemma Parts3(a: string, b: string, c: string)
    ensures At(a + b + c, a, 0) && At(a + b + c, b, |a|) && At(a + b + c, c, |a| + |b|)
  {
    var s := a + b + c;
    assert s[..|a|] == a;
    assert s[|a|..|a| + |b|] == b;
    assert s[|a| + |b|..|a| + |b| + |c|] == c;
  }

  /** Each part of a four-part text sits where the parts before it end. */
  lemma Parts4(a: string, b: string, c: string, d: string)
    ensures var s := a + b + c + d;
      At(s, a, 0) && At(s, b, |a|) && At(s, c, |a| + |b|) && At(s, d, |a| + |b| + |c|)
  {
    Parts3(a, b, c);
    var (abc, s) := (a + b + c, a + b + c + d);
    assert s[..|abc|] == abc;
    assert s[|abc|..|abc| + |d|] == d;
  }

  /** Where the order id starts in the message for `routingKey`. */
  function IdPosition(routingKey: string): (i: nat)
    ensures i > 0
  {
    if routingKey == ORDER_CREATED then |CREATED_PREFIX|
    else if IsOrderKey(routingKey) then |ORDER_PREFIX|
    else |DEFAULT_PREFIX|
  }

  /**
   * The notification text for `routingKey` about `order`: the `order.created`,
   * `order.updated` and `order.cancelled` templates, and a generic one for any other key.
   */
  function Message(routingKey: string, order: Order): (msg: string)
    ensures At(msg, order.id, IdPosition(routingKey))
    ensures routingKey == ORDER_CREATED ==>
              At(msg, CREATED_PREFIX, 0) && At(msg, CREATED_SUFFIX, |CREATED_PREFIX| + |order.id|)
              && |msg| == |CREATED_PREFIX| + |order.id| + |CREATED_SUFFIX|
    ensures routingKey == ORDER_UPDATED ==>
              At(msg, ORDER_PREFIX, 0) && At(msg, UPDATED_INFIX, |ORDER_PREFIX| + |order.id|)
              && At(msg, order.status, |ORDER_PREFIX| + |order.id| + |UPDATED_INFIX|)
              && |msg| == |ORDER_PREFIX| + |order.id| + |UPDATED_INFIX| + |order.status|
    ensures routingKey == ORDER_CANCELLED ==>
              At(msg, ORDER_PREFIX, 0) && At(msg, CANCELLED_SUFFIX, |ORDER_PREFIX| + |order.id|)
              && |msg| == |ORDER_PREFIX| + |order.id| + |CANCELLED_SUFFIX|
    ensures !IsOrderKey(routingKey) ==> At(msg, DEFAULT_PREFIX, 0) && |msg| == |DEFAULT_PREFIX| + |order.id|
  {
    if routingKey == ORDER_CREATED then
      Parts3(CREATED_PREFIX, order.id, CREATED_SUFFIX);
      CREATED_PREFIX + order.id + CREATED_SUFFIX
    else if routingKey == ORDER_UPDATED then
      Parts4(ORDER_PREFIX, order.id, UPDATED_INFIX, order.status);
      ORDER_PREFIX + order.id + UPDATED_INFIX + order.status
    else if routingKey == ORDER_CANCELLED then
      Parts3(ORDER_PREFIX, order.id, CANCELLED_SUFFIX);
      ORDER_PREFIX + order.id + CANCELLED_SUFFIX
    else
      Parts3(DEFAULT_PREFIX, order.id, "");
      assert DEFAULT_PREFIX + order.id + "" == DEFAULT_PREFIX + order.id;
      DEFAULT_PREFIX + order.id
  }

  /**
   * `processNotificationEvent(event, routingKey)`: the message it sends, or the `TypeError`
   * it throws when the event has no `data` (every branch reads `event.data.id`).
   */
  function Notification(event: Event, routingKey: string): (r: Result<string>)
    ensures r.Ok? <==> event.data.Some?
    ensures r.Err? ==> r.error == TypeError
    ensures r.Ok? ==> At(r.value, event.data.value.id, IdPosition(routingKey))
  {
    match event.data
    case None => Err(TypeError)
    case Some(order) => Ok(Message(routingKey, order))
  }

  /**
   * The message depends only on the routing key, the order id and, for `order.updated`, the
   * status: the customer, the event's own id, type and timestamp play no part.
   */
  lemma DependsOnlyOnIdAndStatus(e1: Event, e2: Event, routingKey: string)
    requires e1.data.Some? && e2.data.Some?
    requires e1.data.value.id == e2.data.value.id
    requires routingKey == ORDER_UPDATED ==> e1.data.value.status == e2.data.value.status
    ensures Notification(e1, routingKey) == Notification(e2, routingKey)
  {
  }

  /** All routing keys outside the three order keys share the default message. */
  lemma OtherKeysShareDefault(order: Order, k1: string, k2: string)
    requires !IsOrderKey(k1) && !IsOrderKey(k2)
    ensures Message(k1, order) == Message(k2, order)
  {
  }

  /**
   * Exactly one branch is taken: for the same order the four templates give four different
   * messages, so the message tells which kind of event it announces.
   */
  lemma TemplatesDistinct(order: Order, other: string)
    requires !IsOrderKey(other)
    ensures var (c, u, x, d) := (Message(ORDER_CREATED, order), Message(ORDER_UPDATED, order),
                                 Message(ORDER_CANCELLED, order), Message(other, order));
      c != u && c != x && c != d && u != x && u != d && x != d
  {
    var (c, u, x, d) := (Message(ORDER_CREATED, order), Message(ORDER_UPDATED, order),
                         Message(ORDER_CANCELLED, order), Message(other, order));
    assert c[0] == 'N' && u[0] == 'Y' && x[0] == 'Y' && d[0] == 'U';
    var k := |ORDER_PREFIX| + |order.id| + 10;
    assert u[k] == UPDATED_INFIX[10] == 'u';
    assert x[k] == CANCELLED_SUFFIX[10] == 'c';
  }

  /**
   * Outside `order.updated` the message determines the order id: two orders announced by the
   * same template have the same id exactly when they get the same message.
   */
  lemma IdDeterminedByMessage(routingKey: string, o1: Order, o2: Order)
    requires routingKey != ORDER_UPDATED
    ensures Message(routingKey, o1) == Message(routingKey, o2) <==> o1.id == o2.id
  {
  }
}

=== FILE: order_consumer.dfy ===
/**
 * The order consumer's startup policy: each failed attempt to set up the consumer is
 * retried after an exponentially growing delay capped at 30 seconds, until `maxRetries`
 * retries have failed, when the process exits with status 1.
 *
 * The source re-invokes `startConsumer(retryCount + 1, maxRetries)` from a timer. Here that
 * chain is the recursive `Supervise` (the specification) and the loop of `StartConsumer`,
 * where each iteration is one timer firing.
 */
module OrderConsumer {
  import opened Results
  import opened Config
  import opened Broker
  import RabbitMQ

  const DEFAULT_MAX_RETRIES: nat := 5
  const BASE_DELAY_MS: nat := 1000
  const MAX_DELAY_MS: nat := 30000

  function Pow2(n: nat): (r: nat)
    ensures r >= 1
  {
    if n == 0 then 1 else 2 * Pow2(n - 1)
  }

  lemma {:induction false} Pow2Monotone(m: nat, n: nat)
    requires m <= n
    ensures Pow2(m) <= Pow2(n)
    decreases n
  {
    if m < n {
      Pow2Monotone(m, n - 1);
    }
  }

  /** The delay before retry number `retryCount + 1`: `min(1000 * 2^retryCount, 30000)` ms. */
  function RetryDelay(retryCount: nat): (d: nat)
    ensures BASE_DELAY_MS <= d <= MAX_DELAY_MS
    ensures d <= BASE_DELAY_MS * Pow2(retryCount)
    ensures d < MAX_DELAY_MS ==> d == BASE_DELAY_MS * Pow2(retryCount)
  {
    var exponential := BASE_DELAY_MS * Pow2(retryCount);
    if exponential < MAX_DELAY_MS then exponential else MAX_DELAY_MS
  }

  /** Later retries never wait less. */
  lemma RetryDelayMonotone(m: nat, n: nat)
    requires m <= n
    ensures RetryDelay(m) <= RetryDelay(n)
  {
    Pow2Monotone(m, n);
  }

  /** With the default five retries the delays are 1, 2, 4, 8 and 16 seconds; from the sixth on, the cap. */
  lemma DefaultSchedule()
    ensures RetryDelay(0) == 1000 && RetryDelay(1) == 2000 && RetryDelay(2) == 4000
    ensures RetryDelay(3) == 8000 && RetryDelay(4) == 16000
    ensures forall n :: n >= 5 ==> RetryDelay(n) == MAX_DELAY_MS
  {
    assert Pow2(4) == 16 && Pow2(5) == 32;
    forall n | n >= 5
      ensures RetryDelay(n) == MAX_DELAY_MS
    {
      Pow2Monotone(5, n);
    }
  }

  /** Where startup stands: the consumer runs, a retry is waiting on its timer, or the process exited. */
  datatype Phase = Started | RetryScheduled(delayMs: nat) | Exited(status: int)

  /** What a run of startup attempts did: how many attempts, the delay scheduled after each failure, how it stands. */
  datatype Trace = Trace(attempts: nat, delays: seq<nat>, phase: Phase)

  /**
   * `startConsumer(retryCount, maxRetries)` when attempt number k (counted from 0) succeeds
   * exactly when `outcomes[k]`: success ends the chain; a failure schedules the next attempt
   * while `retryCount < maxRetries`, and otherwise exits with status 1. When the outcomes run
   * out, the last retry is still waiting on its timer.
   */
  function Supervise(outcomes: seq<bool>, retryCount: nat, maxRetries: nat): (t: Trace)
    requires retryCount < |outcomes|
    decreases |outcomes| - retryCount
  {
    if outcomes[retryCount] then Trace(1, [], Started)
    else if retryCount < maxRetries then
      var delay := RetryDelay(retryCount);
      if retryCount + 1 == |outcomes| then Trace(1, [delay], RetryScheduled(delay))
      else
        var rest := Supervise(outcomes, retryCount + 1, maxRetries);
        Trace(1 + rest.attempts, [delay] + rest.delays, rest.phase)
    else Trace(1, [], Exited(1))
  }

  /**
   * The shape of every run: at least one attempt and no more than the outcomes allow or
   * than `maxRetries + 1` in all; one delay per retry scheduled, each the backoff of its
   * retry count; the consumer runs exactly when the last attempt made succeeded, and every
   * attempt before it failed.
   */
  lemma {:induction false} SuperviseShape(outcomes: seq<bool>, retryCount: nat, maxRetries: nat)
    requires retryCount < |outcomes|
    decreases |outcomes| - retryCount
    ensures var t := Supervise(outcomes, retryCount, maxRetries);
      && 1 <= t.attempts <= |outcomes| - retryCount
      && (retryCount <= maxRetries ==> t.attempts <= maxRetries - retryCount + 1)
      && |t.delays| == (if t.phase.RetryScheduled? then t.attempts else t.attempts - 1)
      && (forall i :: 0 <= i < |t.delays| ==> t.delays[i] == RetryDelay(retryCount + i))
      && (t.phase.Started? <==> outcomes[retryCount + t.attempts - 1])
      && (forall k :: retryCount <= k < retryCount + t.attempts - 1 ==> !outcomes[k])
      && (t.phase.RetryScheduled? ==>
            t.attempts == |outcomes| - retryCount && t.phase.delayMs == RetryDelay(|outcomes| - 1))
  {
    if !outcomes[retryCount] && retryCount < maxRetries && retryCount + 1 < |outcomes| {
      SuperviseShape(outcomes, retryCount + 1, maxRetries);
    }
  }

  /**
   * Exhaustion: when the first `maxRetries + 1` attempts all fail, the process exits with
   * status 1 after exactly `maxRetries + 1` attempts; and it only ever exits that way.
   */
  lemma {:induction false} SuperviseExhaustion(outcomes: seq<bool>, retryCount: nat, maxRetries: nat)
    requires retryCount <= maxRetries < |outcomes|
    decreases |outcomes| - retryCount
    ensures var t := Supervise(outcomes, retryCount, maxRetries);
      t.phase == Exited(1) <==> forall k :: retryCount <= k <= maxRetries ==> !outcomes[k]
    ensures Supervise(outcomes, retryCount, maxRetries).phase.Exited? ==>
              Supervise(outcomes, retryCount, maxRetries).attempts == maxRetries - retryCount + 1
  {
    if !outcomes[retryCount] && retryCount < maxRetries {
      SuperviseExhaustion(outcomes, retryCount + 1, maxRetries);
    }
  }

  /**
   * One more attempt observed after a retry was scheduled extends the run by exactly that
   * attempt: `Supervise` of the longer history is the shorter run followed by a single step.
   */
  lemma {:induction false} SuperviseExtend(outcomes: seq<bool>, ok: bool, retryCount: nat, maxRetries: nat)
    requires retryCount < |outcomes|
    requires Supervise(outcomes, retryCount, maxRetries).phase.RetryScheduled?
    decreases |outcomes| - retryCount
    ensures var (t, u) := (Supervise(outcomes, retryCount, maxRetries), Supervise(outcomes + [ok], |outcomes|, maxRetries));
      Supervise(outcomes + [ok], retryCount, maxRetries) == Trace(t.attempts + u.attempts, t.delays + u.delays, u.phase)
  {
    var longer := outcomes + [ok];
    assert longer[retryCount] == outcomes[retryCount];
    if retryCount + 1 < |outcomes| {
      SuperviseExtend(outcomes, ok, retryCount + 1, maxRetries);
    }
  }

  /** Six failed attempts with the default five retries: delays of 1 to 16 seconds, then exit status 1. */
  lemma SixFailuresExit()
    ensures Supervise([false, false, false, false, false, false], 0, DEFAULT_MAX_RETRIES)
         == Trace(6, [1000, 2000, 4000, 8000, 16000], Exited(1))
  {
    DefaultSchedule();
    var o := [false, false, false, false, false, false];
    assert Supervise(o, 5, 5) == Trace(1, [], Exited(1));
    assert Supervise(o, 4, 5) == Trace(2, [16000], Exited(1));
    assert Supervise(o, 3, 5) == Trace(3, [8000, 16000], Exited(1));
    assert Supervise(o, 2, 5) == Trace(4, [4000, 8000, 16000], Exited(1));
    assert Supervise(o, 1, 5) == Trace(5, [2000, 4000, 8000, 16000], Exited(1));
  }

  /**
   * One more attempt after the failed ones in `before`, whose retries were all scheduled: success
   * starts the consumer, a failure under the limit schedules the next retry, and a failure
   * at the limit exits with status 1.
   */
  lemma NextAttempt(before: seq<bool>, ok: bool, delays: seq<nat>, maxRetries: nat)
    requires |before| <= maxRetries && |delays| == |before|
    requires |before| > 0 ==>
               Supervise(before, 0, maxRetries) == Trace(|before|, delays, RetryScheduled(RetryDelay(|before| - 1)))
    ensures var (n, t) := (|before|, Supervise(before + [ok], 0, maxRetries));
      && (ok ==> t == Trace(n + 1, delays, Started))
      && (!ok && n < maxRetries ==> t == Trace(n + 1, delays + [RetryDelay(n)], RetryScheduled(RetryDelay(n))))
      && (!ok && n == maxRetries ==> t == Trace(n + 1, delays, Exited(1)))
  {
    var n := |before|;
    var outcomes := before + [ok];
    var step := Supervise(outcomes, n, maxRetries);
    if n > 0 {
      SuperviseExtend(before, ok, 0, maxRetries);
    } else {
      assert Supervise(outcomes, 0, maxRetries) == step;
    }
    assert delays + [] == delays;
  }

  /** One startup attempt took the client from `before` to `after`, succeeding exactly when `ok`. */
  ghost predicate Attempted(before: RabbitMQ.ClientState, b: Replies, after: RabbitMQ.ClientState, ok: bool) {
    var step := RabbitMQ.ConsumeStep(before, b, ORDERS_QUEUE, ORDER_ROUTING_KEYS);
    after == step.0 && ok == step.1.Pass?
  }

  /**
   * What surrounds attempt k: the client's own operations and events while its timer waits
   * (reconnect timers firing, closes), and the broker's answers to the attempt itself.
   */
  datatype Turn = Turn(meanwhile: seq<RabbitMQ.Action>, replies: Replies)

  /**
   * The client went through `states` by one startup attempt per outcome: from `states[k]`,
   * the actions `turns[k].meanwhile` happened, then attempt k ran with the broker's answers
   * `turns[k].replies`, succeeded when `outcomes[k]` and left `states[k + 1]`.
   */
  ghost predicate Run(states: seq<RabbitMQ.ClientState>, turns: seq<Turn>, outcomes: seq<bool>) {
    && |states| == |outcomes| + 1 && |outcomes| <= |turns|
    && forall k :: 0 <= k < |outcomes| ==>
         Attempted(RabbitMQ.Steps(states[k], turns[k].meanwhile), turns[k].replies, states[k + 1], outcomes[k])
  }

  /** A run followed by one more turn from the state it ended in is a longer run. */
  lemma RunExtend(states: seq<RabbitMQ.ClientState>, turns: seq<Turn>, outcomes: seq<bool>,
                  after: RabbitMQ.ClientState, ok: bool)
    requires Run(states, turns, outcomes) && |outcomes| < |turns|
    requires Attempted(RabbitMQ.Steps(states[|outcomes|], turns[|outcomes|].meanwhile), turns[|outcomes|].replies, after, ok)
    ensures Run(states + [after], turns, outcomes + [ok])
  {
  }

  /** One attempt: `consumeEvents` on the orders queue with the three order routing keys. */
  method Attempt(client: RabbitMQ.Client, b: Replies) returns (ok: bool)
    modifies client
    ensures Attempted(old(client.State()), b, client.State(), ok)
  {
    var r := client.ConsumeEvents(b, ORDERS_QUEUE, ORDER_ROUTING_KEYS);
    ok := r.Pass?;
  }

  /**
   * `startConsumer()` with retries: attempt the consumer setup on the orders queue; each
   * failure schedules the next attempt with the backoff delay, or exits once `maxRetries`
   * retries have failed. Attempt 0 is the call made when the module loads, and attempt
   * k > 0 runs when the k-th retry timer fires. Before attempt k, the actions `turns[k].meanwhile` happen to the client, and `turns[k].replies` is how the
   * broker answers it. With fewer turns than attempts the last retry still waits.
   * `outcomes` reports which attempts succeeded.
   */
  method StartConsumer(client: RabbitMQ.Client, turns: seq<Turn>, maxRetries: nat)
    returns (t: Trace, outcomes: seq<bool>, ghost states: seq<RabbitMQ.ClientState>)
    requires |turns| >= 1
    modifies client
    ensures 1 <= |outcomes| <= |turns| && Run(states, turns, outcomes)
    ensures t == Supervise(outcomes, 0, maxRetries) && t.attempts == |outcomes|
    ensures t.phase.RetryScheduled? ==> |outcomes| == |turns|
    // every attempt is one consumeEvents call on the orders queue, after the actions of its turn
    ensures states[0] == old(client.State()) && states[|outcomes|] == client.State()
  {
    var retryCount: nat := 0;
    var delays: seq<nat> := [];
    outcomes := [];
    states := [client.State()];
    while true
      invariant retryCount == |outcomes| < |turns| && retryCount <= maxRetries
      invariant Run(states, turns, outcomes)
      invariant states[0] == old(client.State()) && states[retryCount] == client.State()
      invariant |delays| == retryCount
      invariant retryCount > 0 ==>
                  Supervise(outcomes, 0, maxRetries) == Trace(retryCount, delays, RetryScheduled(RetryDelay(retryCount - 1)))
      decreases maxRetries - retryCount
    {
      client.PerformAll(turns[retryCount].meanwhile);
      var ok := Attempt(client, turns[retryCount].replies);
      RunExtend(states, turns, outcomes, client.State(), ok);
      NextAttempt(outcomes, ok, delays, maxRetries);
      outcomes := outcomes + [ok];
      states := states + [client.State()];
      if ok {
        return Trace(retryCount + 1, delays, Started), outcomes, states;
      }
      if retryCount == maxRetries {
        return Trace(retryCount + 1, delays, Exited(1)), outcomes, states;
      }
      var retryDelay := RetryDelay(retryCount);
      delays := delays + [retryDelay];
      if retryCount + 1 == |turns| {
        return Trace(retryCount + 1, delays, RetryScheduled(retryDelay)), outcomes, states;
      }
      retryCount := retryCount + 1;
    }
  }
}

=== FILE: rabbitmq.dfy ===
/**
 * The broker client: a cached connection and a cached channel, each either absent or set,
 * filled on successful acquisition and cleared by a close event; publishing; consumer
 * setup; and the per-delivery acknowledgement protocol.
 *
 * The state is given twice: as the value `ClientState` with one pure step function per
 * operation (the specification, about which the lemmas speak), and as the class `Client`,
 * whose methods update the fields in place and are proved to follow the step functions.
 */
module RabbitMQ {
  import opened Results
  import opened Config
  import opened Events
  import opened Broker

  /** The fixed delay before a reconnect attempt, after a failure or a close event. */
  const RECONNECT_DELAY_MS: nat := 5000

  /**
   * The client's state: the broker address, the two caches, the channels that have a close
   * observer, the pending reconnect timers (their delays, oldest first) and every call
   * made to the broker so far, in order.
   */
  datatype ClientState = ClientState(
    url: string,
    connection: Option<Connection>,
    channel: Option<Channel>,
    watched: set<Channel>,
    timers: seq<nat>,
    calls: seq<Call>)

  function Initial(url: string): ClientState {
    ClientState(url, None, None, {}, [], [])
  }

  /** A call made with the configured parameters: exchange, durability, prefetch, requeue. */
  predicate Conforms(url: string, c: Call) {
    match c
    case Connect(u) => u == url
    case AssertExchange(_, name, kind, durable) => name == EXCHANGE && kind == EXCHANGE_TYPE && durable
    case Publish(_, exchange, _, _, persistent) => exchange == EXCHANGE && persistent
    case AssertQueue(_, _, durable) => durable
    case BindQueue(_, _, exchange, _) => exchange == EXCHANGE
    case Prefetch(_, count) => count == 1
    case Nack(_, _, allUpTo, requeue) => !allUpTo && requeue
    case _ => true
  }

  /**
   * Invariant of every reachable state: timers all wait the fixed delay, calls all conform,
   * and a channel still has a close observer only while it is the cached one.
   */
  predicate Valid(s: ClientState) {
    && (forall i :: 0 <= i < |s.timers| ==> s.timers[i] == RECONNECT_DELAY_MS)
    && (forall i :: 0 <= i < |s.calls| ==> Conforms(s.url, s.calls[i]))
    && (forall ch :: ch in s.watched ==> s.channel == Some(ch))
  }

  lemma InitialValid(url: string)
    ensures Valid(Initial(url))
  {
  }

  // ---------------------------------------------------------------------------------------
  // Connection cache

  /** `getConnection`: return the cached connection, or connect and cache the result. */
  function ConnectionStep(s: ClientState, b: Replies): (res: (ClientState, Option<Connection>))
    ensures Valid(s) ==> Valid(res.0)
    ensures res.0.url == s.url && res.0.channel == s.channel && res.0.watched == s.watched
    // a cached connection is returned and no call is made
    ensures s.connection.Some? ==> res == (s, s.connection)
    // otherwise exactly one connect call is made
    ensures s.connection.None? ==> res.0.calls == s.calls + [Connect(s.url)]
    // a successful connect is cached and returned, with nothing scheduled
    ensures s.connection.None? && b.connect.Ok? ==>
              res.1 == Some(b.connect.value) && res.0.connection == res.1 && res.0.timers == s.timers
    // a failed connect caches nothing, returns nothing and schedules one retry
    ensures s.connection.None? && b.connect.Err? ==>
              res.1.None? && res.0.connection.None? && res.0.timers == s.timers + [RECONNECT_DELAY_MS]
  {
    if s.connection.Some? then (s, s.connection)
    else
      var s1 := s.(calls := s.calls + [Connect(s.url)]);
      match b.connect
      case Ok(c) => (s1.(connection := Some(c)), Some(c))
      case Err(_) => (s1.(timers := s1.timers + [RECONNECT_DELAY_MS]), None)
  }

  /**
   * The close observer of the cached connection, the only one attached to a connection
   * still open: forget the connection and schedule a reconnect.
   */
  function ConnectionClosed(s: ClientState): (t: ClientState)
    requires s.connection.Some?
    ensures Valid(s) ==> Valid(t)
    ensures t.connection.None? && t.timers == s.timers + [RECONNECT_DELAY_MS]
    ensures t.url == s.url && t.channel == s.channel && t.watched == s.watched && t.calls == s.calls
  {
    s.(connection := None, timers := s.timers + [RECONNECT_DELAY_MS])
  }

  /** The oldest reconnect timer fires and runs `getConnection`; its result is discarded. */
  function ReconnectFired(s: ClientState, b: Replies): (t: ClientState)
    requires s.timers != []
    ensures Valid(s) ==> Valid(t)
    // a connection re-established in the meantime makes the timer a no-op
    ensures s.connection.Some? ==> t == s.(timers := s.timers[1..])
    ensures t.url == s.url && t.channel == s.channel && t.watched == s.watched
    // a reconnect that fails again keeps exactly one timer pending in place of this one
    ensures |t.timers| == if s.connection.None? && b.connect.Err? then |s.timers| else |s.timers| - 1
  {
    ConnectionStep(s.(timers := s.timers[1..]), b).0
  }

  // ---------------------------------------------------------------------------------------
  // Channel cache

  /**
   * `getChannel`: return the cached channel, or obtain a connection, create a channel on it,
   * cache it, declare the exchange, and only then observe its closing.
   */
  function ChannelStep(s: ClientState, b: Replies): (res: (ClientState, Result<Channel>))
    ensures Valid(s) ==> Valid(res.0)
    ensures res.0.url == s.url
    // a cached channel is returned and nothing else happens
    ensures s.channel.Some? ==> res == (s, Ok(s.channel.value))
    // otherwise the connection is acquired exactly as getConnection does it
    ensures s.channel.None? ==>
              var c := ConnectionStep(s, b).0;
              res.0.connection == c.connection && res.0.timers == c.timers && c.calls <= res.0.calls
    // no connection: the call on `undefined` throws and no channel call is made
    ensures s.channel.None? && ConnectionStep(s, b).1.None? ==> res == (ConnectionStep(s, b).0, Err(TypeError))
    // a channel returned fresh was created on the acquired connection, cached, observed,
    // and the exchange was declared on it
    ensures s.channel.None? && res.1.Ok? ==>
              && ConnectionStep(s, b).1.Some?
              && res.0.channel == Some(res.1.value) && res.1.value in res.0.watched
              && res.0.calls == ConnectionStep(s, b).0.calls +
                                [CreateChannel(ConnectionStep(s, b).1.value),
                                 AssertExchange(res.1.value, EXCHANGE, EXCHANGE_TYPE, true)]
    // a failure after connecting is the broker's error, rethrown
    ensures s.channel.None? && ConnectionStep(s, b).1.Some? && b.createChannel.Err? ==>
              && res.1 == Err(b.createChannel.error) && res.0.channel.None?
              && res.0.calls == ConnectionStep(s, b).0.calls + [CreateChannel(ConnectionStep(s, b).1.value)]
    // a failed exchange declaration leaves the new channel cached, after both calls were made
    ensures s.channel.None? && ConnectionStep(s, b).1.Some? && b.createChannel.Ok? && b.assertExchange.Fail? ==>
              && res.0.channel == Some(b.createChannel.value)
              && res.0.calls == ConnectionStep(s, b).0.calls +
                                [CreateChannel(ConnectionStep(s, b).1.value),
                                 AssertExchange(b.createChannel.value, EXCHANGE, EXCHANGE_TYPE, true)]
    ensures s.channel.None? && ConnectionStep(s, b).1.Some? && b.createChannel.Ok? && b.assertExchange.Fail? ==>
              res.1 == Err(b.assertExchange.error)
    // no failure adds an observer, and the cache holds what it held or the channel just created
    ensures res.1.Err? ==>
              res.0.watched == s.watched &&
              (res.0.channel == s.channel || (b.createChannel.Ok? && res.0.channel == Some(b.createChannel.value)))
  {
    if s.channel.Some? then (s, Ok(s.channel.value))
    else
      var (s1, conn) := ConnectionStep(s, b);
      match conn
      case None => (s1, Err(TypeError))
      case Some(c) =>
        var s2 := s1.(calls := s1.calls + [CreateChannel(c)]);
        match b.createChannel
        case Err(e) => (s2, Err(e))
        case Ok(ch) =>
          var s3 := s2.(channel := Some(ch), calls := s2.calls + [AssertExchange(ch, EXCHANGE, EXCHANGE_TYPE, true)]);
          match b.assertExchange
          case Fail(e) => (s3, Err(e))
          case Pass => (s3.(watched := s3.watched + {ch}), Ok(ch))
  }

  /**
   * Channel `ch` closes: a channel closes once, so its observer, if it has one, fires once
   * and clears the cache.
   */
  function ChannelClosed(s: ClientState, ch: Channel): (t: ClientState)
    ensures Valid(s) ==> Valid(t)
    ensures ch in s.watched ==> t == s.(channel := None, watched := s.watched - {ch})
    ensures ch !in s.watched ==> t == s
    ensures ch !in t.watched
  {
    if ch in s.watched then s.(channel := None, watched := s.watched - {ch}) else s
  }

  // ---------------------------------------------------------------------------------------
  // Publishing

  /** `publishEvent`: publish persistently to the configured exchange and report the broker's answer. */
  function PublishStep(s: ClientState, b: Replies, routingKey: string, message: Event): (res: (ClientState, Result<bool>))
    ensures Valid(s) ==> Valid(res.0)
    // the boolean is the one `publish` returned, false included
    ensures res.1.Ok? <==> ChannelStep(s, b).1.Ok? && b.publish.Ok?
    ensures res.1.Ok? ==> res.1.value == b.publish.value
    // a throwing publish is rethrown with its own error
    ensures ChannelStep(s, b).1.Ok? && b.publish.Err? ==> res.1 == Err(b.publish.error)
    // a channel failure is rethrown, never turned into false, and nothing is published
    ensures ChannelStep(s, b).1.Err? ==> res == (ChannelStep(s, b).0, Err(ChannelStep(s, b).1.error))
    // otherwise exactly one publish call, persistent, to the configured exchange
    ensures ChannelStep(s, b).1.Ok? ==>
              res.0 == ChannelStep(s, b).0.(calls := ChannelStep(s, b).0.calls +
                                                    [Publish(ChannelStep(s, b).1.value, EXCHANGE, routingKey, message, true)])
  {
    var (s1, got) := ChannelStep(s, b);
    match got
    case Err(e) => (s1, Err(e))
    case Ok(ch) =>
      var s2 := s1.(calls := s1.calls + [Publish(ch, EXCHANGE, routingKey, message, true)]);
      match b.publish
      case Ok(accepted) => (s2, Ok(accepted))
      case Err(e) => (s2, Err(e))
  }

  // ---------------------------------------------------------------------------------------
  // Consumer setup

  /** One binding of `queue` to the exchange per routing key, in list order. */
  function BindCalls(ch: Channel, queue: string, routingKeys: seq<string>): (calls: seq<Call>)
    ensures |calls| == |routingKeys|
    ensures forall i :: 0 <= i < |calls| ==> calls[i] == BindQueue(ch, queue, EXCHANGE, routingKeys[i])
  {
    seq(|routingKeys|, i requires 0 <= i < |routingKeys| => BindQueue(ch, queue, EXCHANGE, routingKeys[i]))
  }

  /** The complete setup of a consumer on `ch`: queue, bindings, prefetch, then the consumer itself. */
  function SetupCalls(ch: Channel, queue: string, routingKeys: seq<string>): (calls: seq<Call>)
    ensures |calls| == |routingKeys| + 3
    ensures forall i :: 0 <= i < |calls| ==>
              calls[i] == if i == 0 then AssertQueue(ch, queue, true)
                          else if i <= |routingKeys| then BindQueue(ch, queue, EXCHANGE, routingKeys[i - 1])
                          else if i == |routingKeys| + 1 then Prefetch(ch, 1)
                          else Consume(ch, queue)
  {
    [AssertQueue(ch, queue, true)] + BindCalls(ch, queue, routingKeys) + [Prefetch(ch, 1), Consume(ch, queue)]
  }

  /**
   * The index of the first failing binding from the i-th routing key on, or `n` when all of
   * them succeed: the bindings are awaited one by one, so this is where the loop stops.
   */
  function FirstFailure(reply: nat -> Outcome, i: nat, n: nat): (j: nat)
    requires i <= n
    decreases n - i
    ensures i <= j <= n
    ensures forall k :: i <= k < j ==> reply(k).Pass?
    ensures j < n ==> reply(j).Fail?
  {
    if i == n then n
    else if reply(i).Fail? then i
    else FirstFailure(reply, i + 1, n)
  }

  /**
   * The broker's answer to setup call `i` of `k + 3`: the queue declaration, then binding
   * `i - 1`, then the prefetch, then the consumer registration.
   */
  function SetupReply(b: Replies, k: nat, i: nat): Outcome
    requires i < k + 3
  {
    if i == 0 then b.assertQueue
    else if i <= k then b.bindQueue(i - 1)
    else if i == k + 1 then b.prefetch
    else b.consume
  }

  /**
   * How many of the setup calls `consumeEvents` makes on a channel before it stops: each
   * call is awaited, and the first one that fails ends the setup.
   */
  function SetupMade(b: Replies, routingKeys: seq<string>): (n: nat)
    ensures 1 <= n <= |routingKeys| + 3
    ensures n == |routingKeys| + 3 <==>
              && b.assertQueue.Pass? && b.prefetch.Pass?
              && forall j :: 0 <= j < |routingKeys| ==> b.bindQueue(j).Pass?
    ensures n == 1 <==> b.assertQueue.Fail?
    // every call before the last one made passed, and the last one failed unless the setup got to the end
    ensures forall i :: 0 <= i < n - 1 ==> SetupReply(b, |routingKeys|, i).Pass?
    ensures n < |routingKeys| + 3 ==> SetupReply(b, |routingKeys|, n - 1).Fail?
  {
    var k := |routingKeys|;
    var j := FirstFailure(b.bindQueue, 0, k);
    if b.assertQueue.Fail? then 1
    else if j < k then j + 2
    else if b.prefetch.Fail? then k + 2
    else k + 3
  }

  /** The outcome of the setup calls: the first failure among them, or the consumer registration's. */
  function SetupOutcome(b: Replies, routingKeys: seq<string>): (r: Outcome)
    ensures r.Pass? <==>
              && b.assertQueue.Pass? && b.prefetch.Pass? && b.consume.Pass?
              && forall j :: 0 <= j < |routingKeys| ==> b.bindQueue(j).Pass?
    // the outcome, its error included, is the answer to the last setup call made
    ensures r == SetupReply(b, |routingKeys|, SetupMade(b, routingKeys) - 1)
  {
    var k := |routingKeys|;
    var j := FirstFailure(b.bindQueue, 0, k);
    if b.assertQueue.Fail? then b.assertQueue
    else if j < k then b.bindQueue(j)
    else if b.prefetch.Fail? then b.prefetch
    else b.consume
  }

  /** Concatenation is associative. */
  lemma AppendAssoc<T>(a: seq<T>, b: seq<T>, c: seq<T>)
    ensures a + b + c == a + (b + c)
  {
  }

  /** Stopping during the bindings: the queue declaration and the first `m` bindings. */
  lemma SetupPrefixBinds(ch: Channel, queue: string, routingKeys: seq<string>, m: nat)
    requires m <= |routingKeys|
    ensures SetupCalls(ch, queue, routingKeys)[..m + 1] == [AssertQueue(ch, queue, true)] + BindCalls(ch, queue, routingKeys)[..m]
  {
  }

  /** Stopping at the prefetch: everything but the consumer registration. */
  lemma SetupPrefixPrefetch(ch: Channel, queue: string, routingKeys: seq<string>)
    ensures SetupCalls(ch, queue, routingKeys)[..|routingKeys| + 2] ==
              [AssertQueue(ch, queue, true)] + BindCalls(ch, queue, routingKeys) + [Prefetch(ch, 1)]
  {
  }

  /** Not stopping: the whole setup. */
  lemma SetupComplete(ch: Channel, queue: string, routingKeys: seq<string>)
    ensures SetupCalls(ch, queue, routingKeys)[..|routingKeys| + 3] ==
              [AssertQueue(ch, queue, true)] + BindCalls(ch, queue, routingKeys) + [Prefetch(ch, 1)] + [Consume(ch, queue)]
  {
  }

  /** The setup calls actually made when the queue declaration fails: only that declaration. */
  lemma SetupLogQueueFails(ch: Channel, b: Replies, queue: string, routingKeys: seq<string>)
    requires b.assertQueue.Fail?
    ensures SetupCalls(ch, queue, routingKeys)[..SetupMade(b, routingKeys)] == [AssertQueue(ch, queue, true)]
  {
    SetupPrefixBinds(ch, queue, routingKeys, 0);
  }

  /** The setup calls actually made when binding `j` fails: the declaration and the bindings up to `j`. */
  lemma SetupLogBindFails(ch: Channel, b: Replies, queue: string, routingKeys: seq<string>, j: nat)
    requires b.assertQueue.Pass? && j == FirstFailure(b.bindQueue, 0, |routingKeys|) < |routingKeys|
    ensures SetupCalls(ch, queue, routingKeys)[..SetupMade(b, routingKeys)] ==
              [AssertQueue(ch, queue, true)] + BindCalls(ch, queue, routingKeys)[..j + 1]
  {
    assert SetupMade(b, routingKeys) == j + 2;
    SetupPrefixBinds(ch, queue, routingKeys, j + 1);
  }

  /** The setup calls actually made when the prefetch fails: everything but the registration. */
  lemma SetupLogPrefetchFails(ch: Channel, b: Replies, queue: string, routingKeys: seq<string>)
    requires b.assertQueue.Pass? && FirstFailure(b.bindQueue, 0, |routingKeys|) == |routingKeys| && b.prefetch.Fail?
    ensures SetupCalls(ch, queue, routingKeys)[..SetupMade(b, routingKeys)] ==
              [AssertQueue(ch, queue, true)] + BindCalls(ch, queue, routingKeys) + [Prefetch(ch, 1)]
  {
    assert SetupMade(b, routingKeys) == |routingKeys| + 2;
    SetupPrefixPrefetch(ch, queue, routingKeys);
  }

  /** The setup calls actually made when nothing before the registration fails: the whole setup. */
  lemma SetupLogComplete(ch: Channel, b: Replies, queue: string, routingKeys: seq<string>)
    requires b.assertQueue.Pass? && FirstFailure(b.bindQueue, 0, |routingKeys|) == |routingKeys| && b.prefetch.Pass?
    ensures SetupCalls(ch, queue, routingKeys)[..SetupMade(b, routingKeys)] ==
              [AssertQueue(ch, queue, true)] + BindCalls(ch, queue, routingKeys) + [Prefetch(ch, 1)] + [Consume(ch, queue)]
  {
    assert SetupMade(b, routingKeys) == |routingKeys| + 3;
    SetupComplete(ch, queue, routingKeys);
  }

  /** Logging any prefix of the setup keeps the invariant: every setup call conforms. */
  lemma SetupKeepsValid(t: ClientState, ch: Channel, queue: string, routingKeys: seq<string>, n: nat)
    requires n <= |routingKeys| + 3
    ensures Valid(t) ==> Valid(t.(calls := t.calls + SetupCalls(ch, queue, routingKeys)[..n]))
  {
    var setup := SetupCalls(ch, queue, routingKeys);
    assert forall i :: 0 <= i < n ==> Conforms(t.url, setup[i]);
  }

  /**
   * `consumeEvents`: acquire the channel, declare the queue, bind it once per routing key,
   * set prefetch to 1 and register the consumer, stopping at the first failure, which is
   * rethrown.
   */
  function ConsumeStep(s: ClientState, b: Replies, queue: string, routingKeys: seq<string>): (res: (ClientState, Outcome))
    ensures Valid(s) ==> Valid(res.0)
    // a channel failure is rethrown and no setup call is made
    ensures ChannelStep(s, b).1.Err? ==> res == (ChannelStep(s, b).0, Fail(ChannelStep(s, b).1.error))
    // otherwise the calls made on the channel are a prefix of the complete setup, in its order,
    // and nothing but the call log changes
    ensures ChannelStep(s, b).1.Ok? ==>
              var (t, ch) := (ChannelStep(s, b).0, ChannelStep(s, b).1.value);
              res == (t.(calls := t.calls + SetupCalls(ch, queue, routingKeys)[..SetupMade(b, routingKeys)]),
                      SetupOutcome(b, routingKeys))
  {
    var (s1, got) := ChannelStep(s, b);
    match got
    case Err(e) => (s1, Fail(e))
    case Ok(ch) =>
      var (setup, made) := (SetupCalls(ch, queue, routingKeys), SetupMade(b, routingKeys));
      SetupKeepsValid(s1, ch, queue, routingKeys, made);
      (s1.(calls := s1.calls + setup[..made]), SetupOutcome(b, routingKeys))
  }

  /** Consumer setup succeeds exactly when every step does, and then the whole setup was made. */
  lemma ConsumeSucceeds(s: ClientState, b: Replies, queue: string, routingKeys: seq<string>)
    ensures var (t, r) := ConsumeStep(s, b, queue, routingKeys);
      r.Pass? <==>
        && ChannelStep(s, b).1.Ok? && b.assertQueue.Pass? && b.prefetch.Pass? && b.consume.Pass?
        && forall j :: 0 <= j < |routingKeys| ==> b.bindQueue(j).Pass?
    ensures var (t, r) := ConsumeStep(s, b, queue, routingKeys);
      r.Pass? ==> t.calls == ChannelStep(s, b).0.calls + SetupCalls(ChannelStep(s, b).1.value, queue, routingKeys)
  {
  }

  // ---------------------------------------------------------------------------------------
  // Per-delivery settlement

  /**
   * The consumer callback for one delivery on `ch`: nothing for a null message; otherwise
   * parse, run the handler with the delivery's routing key, ack on success. Any failure in
   * that block, the ack itself included, is answered by a nack with requeue.
   */
  function Settle(ch: Channel, msg: Option<Delivery>, parsed: Result<Event>,
                  handler: (Event, string) -> Outcome, ackReply: Outcome): (calls: seq<Call>)
    ensures msg.None? ==> calls == []
    ensures msg.Some? ==> 1 <= |calls| <= 2
    ensures msg.Some? ==> forall c :: c in calls ==> c == Ack(ch, msg.value.tag) || c == Nack(ch, msg.value.tag, false, true)
    ensures msg.Some? && Handled(msg.value, parsed, handler) ==> calls[0] == Ack(ch, msg.value.tag)
    ensures msg.Some? && Handled(msg.value, parsed, handler) && ackReply.Pass? ==> |calls| == 1
    ensures msg.Some? && !(Handled(msg.value, parsed, handler) && ackReply.Pass?) ==>
              calls[|calls| - 1] == Nack(ch, msg.value.tag, false, true)
  {
    match msg
    case None => []
    case Some(d) =>
      if Handled(d, parsed, handler) then
        if ackReply.Pass? then [Ack(ch, d.tag)] else [Ack(ch, d.tag), Nack(ch, d.tag, false, true)]
      else [Nack(ch, d.tag, false, true)]
  }

  /** The payload parsed and the handler, given the delivery's routing key, resolved. */
  predicate Handled(d: Delivery, parsed: Result<Event>, handler: (Event, string) -> Outcome) {
    parsed.Ok? && handler(parsed.value, d.routingKey).Pass?
  }

  /**
   * How the callback's promise settles. The nack sits in the `catch` block with nothing
   * around it, so the callback rejects exactly when a nack was sent and threw, with the
   * nack's error; nothing handles that rejection.
   */
  function SettleOutcome(msg: Option<Delivery>, parsed: Result<Event>, handler: (Event, string) -> Outcome,
                         ackReply: Outcome, nackReply: Outcome): (r: Outcome)
    ensures r.Fail? <==> msg.Some? && !(Handled(msg.value, parsed, handler) && ackReply.Pass?) && nackReply.Fail?
    ensures r.Fail? ==> r == nackReply
  {
    match msg
    case None => Pass
    case Some(d) => if Handled(d, parsed, handler) && ackReply.Pass? then Pass else nackReply
  }

  /** The callback rejects only after it sent a nack for the delivery, as the last of its calls. */
  lemma RejectsOnlyAfterNack(ch: Channel, msg: Option<Delivery>, parsed: Result<Event>,
                             handler: (Event, string) -> Outcome, ackReply: Outcome, nackReply: Outcome)
    ensures var (calls, r) := (Settle(ch, msg, parsed, handler, ackReply), SettleOutcome(msg, parsed, handler, ackReply, nackReply));
      r.Fail? ==> msg.Some? && calls != [] && calls[|calls| - 1] == Nack(ch, msg.value.tag, false, true)
  {
  }

  /** The number of acks for delivery `tag` among `calls`. */
  function Acks(calls: seq<Call>, tag: nat): nat {
    if calls == [] then 0
    else Acks(calls[..|calls| - 1], tag) + if calls[|calls| - 1].Ack? && calls[|calls| - 1].tag == tag then 1 else 0
  }

  /** The number of nacks for delivery `tag` among `calls`. */
  function Nacks(calls: seq<Call>, tag: nat): nat {
    if calls == [] then 0
    else Nacks(calls[..|calls| - 1], tag) + if calls[|calls| - 1].Nack? && calls[|calls| - 1].tag == tag then 1 else 0
  }

  lemma {:induction false} CountsAppend(a: seq<Call>, b: seq<Call>, tag: nat)
    ensures Acks(a + b, tag) == Acks(a, tag) + Acks(b, tag)
    ensures Nacks(a + b, tag) == Nacks(a, tag) + Nacks(b, tag)
    decreases |b|
  {
    if b == [] {
      assert a + b == a;
    } else {
      assert (a + b)[..|a + b| - 1] == a + b[..|b| - 1];
      CountsAppend(a, b[..|b| - 1], tag);
    }
  }

  /**
   * Settlement of one delivery, as the broker sees it in the log: a null message adds no
   * ack and no nack; otherwise the delivery gets exactly one ack when parsing and handling
   * succeeded, else exactly one nack; both only when the ack itself threw. No other
   * delivery's settlements change.
   */
  lemma {:induction false} SettledOnce(calls: seq<Call>, ch: Channel, msg: Option<Delivery>, parsed: Result<Event>,
                                       handler: (Event, string) -> Outcome, ackReply: Outcome, tag: nat)
    ensures var after := calls + Settle(ch, msg, parsed, handler, ackReply);
      && (msg.None? || msg.value.tag != tag ==> Acks(after, tag) == Acks(calls, tag) && Nacks(after, tag) == Nacks(calls, tag))
      && (msg.Some? && msg.value.tag == tag ==>
            && Acks(after, tag) == Acks(calls, tag) + (if Handled(msg.value, parsed, handler) then 1 else 0)
            && Nacks(after, tag) == Nacks(calls, tag) + (if Handled(msg.value, parsed, handler) && ackReply.Pass? then 0 else 1))
  {
    var out := Settle(ch, msg, parsed, handler, ackReply);
    CountsAppend(calls, out, tag);
    if msg.Some? {
      var d := msg.value;
      if Handled(d, parsed, handler) && ackReply.Fail? {
        assert out == [Ack(ch, d.tag), Nack(ch, d.tag, false, true)];
        assert out[..1] == [Ack(ch, d.tag)] && out[..1][..0] == [];
        assert Acks(out[..1], tag) == if d.tag == tag then 1 else 0;
        assert Acks(out, tag) == Acks(out[..1], tag);
        assert Nacks(out, tag) == Nacks(out[..1], tag) + (if d.tag == tag then 1 else 0);
      } else {
        assert out[..0] == [];
      }
    }
  }

  // ---------------------------------------------------------------------------------------
  // Runs of operations and events

  /** One thing that happens to the client: an operation, with the broker's answers, or an event it observes. */
  datatype Action =
    | GetConnectionCall(b: Replies)
    | ConnectionClose
    | ReconnectTimer(b: Replies)
    | GetChannelCall(b: Replies)
    | ChannelClose(ch: Channel)
    | PublishCall(b: Replies, routingKey: string, message: Event)
    | ConsumeCall(b: Replies, queue: string, routingKeys: seq<string>)
    | DeliveryCallback(ch: Channel, msg: Option<Delivery>, parsed: Result<Event>,
                       handler: (Event, string) -> Outcome, ackReply: Outcome)

  /**
   * The client after action `a`. A connection close with no connection, or a timer firing
   * when none is pending, cannot happen and leaves the state as it is.
   */
  function Next(s: ClientState, a: Action): (t: ClientState)
    ensures Valid(s) ==> Valid(t)
    ensures t.url == s.url
    ensures a.ConnectionClose? && s.connection.None? ==> t == s
    ensures a.ReconnectTimer? && s.timers == [] ==> t == s
  {
    match a
    case GetConnectionCall(b) => ConnectionStep(s, b).0
    case ConnectionClose => if s.connection.Some? then ConnectionClosed(s) else s
    case ReconnectTimer(b) => if s.timers != [] then ReconnectFired(s, b) else s
    case GetChannelCall(b) => ChannelStep(s, b).0
    case ChannelClose(ch) => ChannelClosed(s, ch)
    case PublishCall(b, routingKey, message) => PublishStep(s, b, routingKey, message).0
    case ConsumeCall(b, queue, routingKeys) => ConsumeStep(s, b, queue, routingKeys).0
    case DeliveryCallback(ch, msg, parsed, handler, ackReply) =>
      var t := s.(calls := s.calls + Settle(ch, msg, parsed, handler, ackReply));
      assert forall i :: |s.calls| <= i < |t.calls| ==> Conforms(s.url, t.calls[i]);
      t
  }

  /** The client after the actions, in order. */
  function Steps(s: ClientState, actions: seq<Action>): (t: ClientState)
    ensures Valid(s) ==> Valid(t)
    ensures t.url == s.url
    decreases |actions|
  {
    if actions == [] then s else Steps(Next(s, actions[0]), actions[1..])
  }

  /**
   * A cached channel without a close observer stays cached through any action: no operation
   * replaces a cached channel, and no other channel's observer is left to clear it.
   */
  lemma StuckChannelStep(s: ClientState, a: Action)
    requires Valid(s) && s.channel.Some? && s.channel.value !in s.watched
    ensures Next(s, a).channel == s.channel && Next(s, a).watched == {}
  {
    assert s.watched == {};
  }

  /** A cached channel without a close observer stays cached, unobserved, through any run of actions. */
  lemma {:induction false} StuckChannelStays(s: ClientState, actions: seq<Action>)
    requires Valid(s) && s.channel.Some? && s.channel.value !in s.watched
    ensures Steps(s, actions).channel == s.channel && s.channel.value !in Steps(s, actions).watched
    decreases |actions|
  {
    if actions != [] {
      StuckChannelStep(s, actions[0]);
      StuckChannelStays(Next(s, actions[0]), actions[1..]);
    }
  }

  /**
   * A channel whose exchange declaration failed is never cleared: whatever operations and
   * events follow, it remains the cached channel.
   */
  lemma FailedChannelNeverCleared(s: ClientState, b: Replies, actions: seq<Action>)
    requires Valid(s) && s.channel.None? && ConnectionStep(s, b).1.Some?
    requires b.createChannel.Ok? && b.assertExchange.Fail?
    ensures Steps(ChannelStep(s, b).0, actions).channel == Some(b.createChannel.value)
  {
    StuckChannelStays(ChannelStep(s, b).0, actions);
  }

  /**
   * A reconnect timer that fires and connects serves the next operation: `getConnection`
   * then returns that connection and makes no connect call of its own.
   */
  lemma TimerReconnectServesNextCall(s: ClientState, b0: Replies, b: Replies)
    requires s.connection.None? && s.timers != [] && b0.connect.Ok?
    ensures var u := Steps(s, [ReconnectTimer(b0)]);
      && u.calls == s.calls + [Connect(s.url)]
      && ConnectionStep(u, b) == (u, Some(b0.connect.value))
  {
    assert Steps(s, [ReconnectTimer(b0)]) == Steps(ReconnectFired(s, b0), []);
  }

  // ---------------------------------------------------------------------------------------
  // Scenarios over several steps

  /** Once a channel is obtained, the next `getChannel` returns it without any call. */
  lemma ChannelIsReused(s: ClientState, b1: Replies, b2: Replies)
    requires ChannelStep(s, b1).1.Ok?
    ensures ChannelStep(ChannelStep(s, b1).0, b2) == (ChannelStep(s, b1).0, ChannelStep(s, b1).1)
  {
  }

  /**
   * A channel whose exchange declaration failed stays cached with no close observer: its
   * closing does not clear the cache, and every later `getChannel` returns it without
   * declaring the exchange again.
   */
  lemma FailedDeclarationSticks(s: ClientState, b1: Replies, b2: Replies)
    requires s.channel.None? && ConnectionStep(s, b1).1.Some?
    requires b1.createChannel.Ok? && b1.createChannel.value !in s.watched && b1.assertExchange.Fail?
    ensures var (t, r) := ChannelStep(s, b1);
      && r == Err(b1.assertExchange.error)
      && ChannelClosed(t, b1.createChannel.value) == t
      && ChannelStep(t, b2) == (t, Ok(b1.createChannel.value))
  {
  }

  /**
   * After the connection and then the channel close, the next `getChannel` against a
   * healthy broker reconnects, creates a new channel and declares the exchange on it.
   */
  lemma ReacquireAfterClose(s: ClientState, b: Replies)
    requires s.connection.Some? && s.channel.Some? && s.channel.value in s.watched
    requires b.connect.Ok? && b.createChannel.Ok? && b.assertExchange.Pass?
    ensures var t := ChannelClosed(ConnectionClosed(s), s.channel.value);
      var (u, r) := ChannelStep(t, b);
      && r == Ok(b.createChannel.value)
      && u.connection == Some(b.connect.value)
      && u.calls == s.calls + [Connect(s.url), CreateChannel(b.connect.value),
                               AssertExchange(b.createChannel.value, EXCHANGE, EXCHANGE_TYPE, true)]
  {
  }

  /** A connection close alone leaves the cached channel in use: `getChannel` returns it, with no call. */
  lemma ConnectionCloseKeepsChannel(s: ClientState, b: Replies)
    requires s.connection.Some? && s.channel.Some?
    ensures ChannelStep(ConnectionClosed(s), b) == (ConnectionClosed(s), Ok(s.channel.value))
  {
  }

  // ---------------------------------------------------------------------------------------
  // The module-level state, updated in place

  class Client {
    const url: string
    var connection: Option<Connection>
    var channel: Option<Channel>
    var watched: set<Channel>
    var timers: seq<nat>
    var calls: seq<Call>

    function State(): ClientState
      reads this
    {
      ClientState(url, connection, channel, watched, timers, calls)
    }

    /** Module load: both caches empty; the address comes from the environment. */
    constructor (env: Option<string>)
      ensures State() == Initial(BrokerUrl(env)) && Valid(State())
    {
      url := BrokerUrl(env);
      connection, channel := None, None;
      watched, timers, calls := {}, [], [];
    }

    method GetConnection(b: Replies) returns (r: Option<Connection>)
      modifies this
      ensures (State(), r) == ConnectionStep(old(State()), b)
    {
      if connection.Some? {
        return connection;
      }
      calls := calls + [Connect(url)];
      match b.connect {
        case Ok(c) =>
          connection := Some(c);
          r := connection;
        case Err(_) =>
          timers := timers + [RECONNECT_DELAY_MS];
          r := None;
      }
    }

    method OnConnectionClose()
      requires connection.Some?
      modifies this
      ensures State() == ConnectionClosed(old(State()))
    {
      connection := None;
      timers := timers + [RECONNECT_DELAY_MS];
    }

    method OnReconnectTimer(b: Replies)
      requires timers != []
      modifies this
      ensures State() == ReconnectFired(old(State()), b)
    {
      timers := timers[1..];
      var _ := GetConnection(b);
    }

    method GetChannel(b: Replies) returns (r: Result<Channel>)
      modifies this
      ensures (State(), r) == ChannelStep(old(State()), b)
    {
      if channel.Some? {
        return Ok(channel.value);
      }
      var conn := GetConnection(b);
      if conn.None? {
        return Err(TypeError);
      }
      calls := calls + [CreateChannel(conn.value)];
      if b.createChannel.Err? {
        return Err(b.createChannel.error);
      }
      var ch := b.createChannel.value;
      channel := Some(ch);
      calls := calls + [AssertExchange(ch, EXCHANGE, EXCHANGE_TYPE, true)];
      if b.assertExchange.Fail? {
        return Err(b.assertExchange.error);
      }
      watched := watched + {ch};
      r := Ok(ch);
    }

    method OnChannelClose(ch: Channel)
      modifies this
      ensures State() == ChannelClosed(old(State()), ch)
    {
      if ch in watched {
        channel := None;
        watched := watched - {ch};
      }
    }

    method PublishEvent(b: Replies, routingKey: string, message: Event) returns (r: Result<bool>)
      modifies this
      ensures (State(), r) == PublishStep(old(State()), b, routingKey, message)
    {
      var got := GetChannel(b);
      if got.Err? {
        return Err(got.error);
      }
      calls := calls + [Publish(got.value, EXCHANGE, routingKey, message, true)];
      match b.publish {
        case Ok(accepted) => r := Ok(accepted);
        case Err(e) => r := Err(e);
      }
    }

    method ConsumeEvents(b: Replies, queue: string, routingKeys: seq<string>) returns (r: Outcome)
      modifies this
      ensures (State(), r) == ConsumeStep(old(State()), b, queue, routingKeys)
    {
      var got := GetChannel(b);
      if got.Err? {
        return Fail(got.error);
      }
      r := SetUpConsumer(got.value, b, queue, routingKeys);
    }

    /** The awaited setup calls of `consumeEvents` on channel `ch`, up to the first failure. */
    method SetUpConsumer(ch: Channel, b: Replies, queue: string, routingKeys: seq<string>) returns (r: Outcome)
      modifies this
      ensures State() == old(State()).(calls := old(calls) + SetupCalls(ch, queue, routingKeys)[..SetupMade(b, routingKeys)])
      ensures r == SetupOutcome(b, routingKeys)
    {
      ghost var start := calls;
      ghost var (j, binds) := (FirstFailure(b.bindQueue, 0, |routingKeys|), BindCalls(ch, queue, routingKeys));
      var declared := [AssertQueue(ch, queue, true)];
      calls := calls + declared;
      if b.assertQueue.Fail? {
        SetupLogQueueFails(ch, b, queue, routingKeys);
        return b.assertQueue;
      }
      var bound := BindAll(ch, b.bindQueue, queue, routingKeys);
      if bound.Fail? {
        SetupLogBindFails(ch, b, queue, routingKeys, j);
        AppendAssoc(start, declared, binds[..j + 1]);
        return bound;
      }
      assert binds[..|routingKeys|] == binds;
      AppendAssoc(start, declared, binds);
      calls := calls + [Prefetch(ch, 1)];
      AppendAssoc(start, declared + binds, [Prefetch(ch, 1)]);
      if b.prefetch.Fail? {
        SetupLogPrefetchFails(ch, b, queue, routingKeys);
        return b.prefetch;
      }
      SetupLogComplete(ch, b, queue, routingKeys);
      calls := calls + [Consume(ch, queue)];
      AppendAssoc(start, declared + binds + [Prefetch(ch, 1)], [Consume(ch, queue)]);
      r := b.consume;
    }

    /** The `for` loop of `consumeEvents`: bind `queue` once per routing key, awaiting each binding. */
    method BindAll(ch: Channel, reply: nat -> Outcome, queue: string, routingKeys: seq<string>) returns (r: Outcome)
      modifies this
      ensures var j := FirstFailure(reply, 0, |routingKeys|);
        && State() == old(State()).(calls := old(calls) + BindCalls(ch, queue, routingKeys)[..if j < |routingKeys| then j + 1 else j])
        && r == if j < |routingKeys| then reply(j) else Pass
    {
      ghost var all := BindCalls(ch, queue, routingKeys);
      ghost var j := FirstFailure(reply, 0, |routingKeys|);
      var i := 0;
      while i < |routingKeys|
        invariant 0 <= i <= |routingKeys| && i <= j
        invariant State() == old(State()).(calls := old(calls) + all[..i])
      {
        calls := calls + [BindQueue(ch, queue, EXCHANGE, routingKeys[i])];
        assert all[..i + 1] == all[..i] + [all[i]];
        if reply(i).Fail? {
          return reply(i);
        }
        i := i + 1;
      }
      assert all[..i] == all;
      r := Pass;
    }

    /** Action `a` happens to the client, in place. */
    method Perform(a: Action)
      modifies this
      ensures State() == Next(old(State()), a)
    {
      match a {
        case GetConnectionCall(b) =>
          var _ := GetConnection(b);
        case ConnectionClose =>
          if connection.Some? {
            OnConnectionClose();
          }
        case ReconnectTimer(b) =>
          if timers != [] {
            OnReconnectTimer(b);
          }
        case GetChannelCall(b) =>
          var _ := GetChannel(b);
        case ChannelClose(ch) =>
          OnChannelClose(ch);
        case PublishCall(b, routingKey, message) =>
          var _ := PublishEvent(b, routingKey, message);
        case ConsumeCall(b, queue, routingKeys) =>
          var _ := ConsumeEvents(b, queue, routingKeys);
        case DeliveryCallback(ch, msg, parsed, handler, ackReply) =>
          var _ := OnDelivery(ch, msg, parsed, handler, ackReply, Pass);
      }
    }

    /** The actions happen to the client one after another, in place. */
    method PerformAll(actions: seq<Action>)
      modifies this
      ensures State() == Steps(old(State()), actions)
    {
      var i := 0;
      while i < |actions|
        invariant 0 <= i <= |actions|
        invariant Steps(old(State()), actions) == Steps(State(), actions[i..])
      {
        assert actions[i..][1..] == actions[i + 1..];
        Perform(actions[i]);
        i := i + 1;
      }
    }

    /** The delivery callback registered on `ch` by `ConsumeEvents`; `r` is how its promise settles. */
    method OnDelivery(ch: Channel, msg: Option<Delivery>, parsed: Result<Event>,
                      handler: (Event, string) -> Outcome, ackReply: Outcome, nackReply: Outcome)
      returns (r: Outcome)
      modifies this
      ensures State() == old(State()).(calls := old(calls) + Settle(ch, msg, parsed, handler, ackReply))
      ensures r == SettleOutcome(msg, parsed, handler, ackReply, nackReply)
    {
      r := Pass;
      if msg.None? {
        return;
      }
      var d := msg.value;
      var failed := false;
      if parsed.Err? {
        failed := true;
      } else {
        var handled := handler(parsed.value, d.routingKey);
        if handled.Fail? {
          failed := true;
        } else {
          calls := calls + [Ack(ch, d.tag)];
          failed := ackReply.Fail?;
        }
      }
      if failed {
        calls := calls + [Nack(ch, d.tag, false, true)];
        r := nackReply;
      }
    }
  }
}

=== FILE: results.dfy ===
/** Failure-carrying values shared by the model: JavaScript exceptions become `Err`/`Fail`. */
module Results {

  datatype Option<+T> = None | Some(value: T)

  /** What a rejected promise or a thrown exception carries. */
  datatype Error =
    | BrokerError(message: string)  // an error raised by the broker client library
    | TypeError                     // a property read on `undefined` or `null`

  /** A value, or the error that was thrown instead of returning it. */
  datatype Result<+T> = Ok(value: T) | Err(error: Error)

  /** Completion of an operation that returns nothing: it resolved, or it threw. */
  datatype Outcome = Pass | Fail(error: Error)
}
